=== FILE: README.md ===
# Write-time hooks of the devcortex content platform, in Dafny

The platform stores its content in MongoDB through Mongoose schemas. Almost
all of those schemas only declare fields and indexes. Four of them also
attach logic that runs on every save. This project models that logic as
pure functions and small collection models, and proves what it guarantees.

- **News.** A pre-save hook derives two fields. When `title` was modified and
  `slug` is empty, the slug becomes the title lower-cased, with every run of
  characters outside `[a-z0-9]` replaced by one `-`, and with one leading and
  one trailing `-` removed. When `content` was modified, `readingTime`
  becomes `ceil(wordCount / 200)`. Here `wordCount` is the number of pieces
  `content.split(/\s+/)` returns. That is one more than the number of
  whitespace runs, so it is at least 1.
  Modules: `Slug` (`slug.dfy`), `ReadingTime` (`reading_time.dfy`) and
  `NewsSchema` (`news.dfy`).
- **Course.** When `ratings` was modified, a pre-save hook recomputes two
  fields from scratch. `totalRatings` becomes the number of ratings.
  `averageRating` becomes their mean. Both are 0 when there are no ratings.
  Each rating is bounded to 1..5 by the schema. Module: `CourseSchema`
  (`course.dfy`).
- **Follow.** A pre-save hook refuses a follow whose follower is also the
  followed user. A unique index on the ordered pair `(follower, following)`
  refuses a duplicate edge. Module: `FollowSchema` (`follow.dfy`).
- **Enrollment.** A unique index on `(courseId, userId)` lets a user enrol in
  a course at most once. A new enrollment gets `progress` 0 unless the caller
  gives one. Module: `EnrollmentSchema` (`enrollment.dfy`).

Three modules are shared. `ObjectIds` (`object_id.dfy`) holds the
document identifier type. `UniqueIndex` (`unique_index.dfy`) models a
collection behind a MongoDB unique index. An insert whose key is already
taken is refused with a duplicate-key error, and the collection stays as it
was. `Optional` (`optional.dfy`) holds `Option`, for fields a caller may leave unset.

Mongoose's `isModified` tracking is modelled as boolean inputs. A save
refused by a hook or by an index returns the collection unchanged. Fields a
hook never touches are carried in a type parameter `Other`, so "nothing else
changes" is stated as `r.other == doc.other`.

Some consequences of the code are easy to miss:

- The word count is the number of pieces `split(/\s+/)` returns, not the
  number of non-empty words. Empty content therefore takes 1 minute, and
  leading or trailing whitespace adds a piece (`" a "` counts 3).
- `src/db/Comment.ts` declares fields and indexes only. It has no hook, so
  there is nothing about comments to model.
- `src/db/Enrollment.ts` bounds neither `progress` nor `completedAt`.
  `EnrollmentSchema.NoProgressOrDateCheck` shows a document with progress
  150 and a completion before its enrolment being stored.
- The Course hook runs only when `ratings` is modified, so a direct write
  to `averageRating` alone stands. `CourseSchema.SaveKeepsConsistent`
  states the condition under which the aggregates stay exact.

## Model

| member | source | states |
|---|---|---|
| `Slug.LowerCase` | src/db/News.ts:101 | lower-casing keeps the length, leaves no ASCII upper-case letter, turns each one into its own lower-case letter, and keeps every other character |
| `Slug.CollapseRuns` | src/db/News.ts:102 | replacing `[^a-z0-9]+` by `-` gives only `[a-z0-9-]` and never two adjacent dashes; the result is empty exactly when the input is; it starts with a dash exactly when the input starts with a separator; it keeps the input's letters and digits in order |
| `Slug.CollapseRunsIsMaskThenSqueeze` | src/db/News.ts:102 | the run replacement equals a position-local reference: mask every character outside `[a-z0-9]` as a dash, then drop each dash that follows a dash |
| `Slug.TrimDashes` | src/db/News.ts:103 | at most one dash is removed at each end and nothing else changes: the result is the input, the input without its first or its last character, or without both; from slug characters without doubled dashes it leaves a slug with the same letters and digits |
| `Slug.Slugify` | src/db/News.ts:100-103 | every derived slug holds only `[a-z0-9-]`, has no doubled dash and no dash at either end, and keeps exactly the letters and digits of the lower-cased title, in order |
| `Slug.SlugifyIsMaskSqueezeTrim` | src/db/News.ts:100-103 | the derived slug equals a position-local reference for every title: lower-case, mask each character outside `[a-z0-9]` as a dash, drop each dash that follows a dash, then trim one dash at each end |
| `Slug.SlugIsFixedPoint` | src/db/News.ts:100-103 | a string already in slug shape, for example lowercase letters and digits only, is its own slug |
| `Slug.SlugifyIdempotent` | src/db/News.ts:100-103 | deriving a slug from a derived slug returns it unchanged |
| `Slug.SlugifyEmptyIff` | src/db/News.ts:100-103 | the slug is empty exactly when the lower-cased title holds no letter or digit, so a title made only of separators gives `""` |
| `Slug.SlugOfTwoWords` | src/db/News.ts:102-103 | two words joined by a separator run, with optional separator runs around them, give the two words joined by one dash |
| `Slug.SlugifyHelloWorld` | src/db/News.ts:100-103 | `"Hello, World!"` gives `"hello-world"` |
| `Slug.SlugifyDoubledSeparators` | src/db/News.ts:100-103 | `"  A--B  "` gives `"a-b"` |
| `ReadingTime.Split` | src/db/News.ts:108 | `split(/\s+/)` returns at least one piece, and no piece holds whitespace |
| `ReadingTime.SplitCountsRuns` | src/db/News.ts:108 | `split(/\s+/)` returns one piece more than there are maximal whitespace runs |
| `ReadingTime.WordCount` | src/db/News.ts:108 | the word count is the number of maximal whitespace runs plus one |
| `ReadingTime.SplitJoin` | src/db/News.ts:108 | splitting words joined by single spaces gives back the words |
| `ReadingTime.CeilDiv` | src/db/News.ts:109 | `q = ceil(n / d)`, that is `(q - 1) * d < n <= q * d` |
| `ReadingTime.ReadingTime` | src/db/News.ts:106-109 | the reading time is the least whole number of minutes at 200 words per minute covering (whitespace runs + 1) words, and is at least 1 |
| `ReadingTime.WordCountOfJoinedWords` | src/db/News.ts:108 | `n` words separated by single spaces count as `n` |
| `ReadingTime.ReadingTimeOf450Words` | src/db/News.ts:108-109 | 450 words separated by single spaces take 3 minutes |
| `ReadingTime.ReadingTimeOfEmptyContent` | src/db/News.ts:108-109 | empty content counts one piece and takes 1 minute |
| `ReadingTime.WordCountOfPaddedWord` | src/db/News.ts:108 | leading and trailing whitespace each add a piece: `" a "` counts 3 |
| `NewsSchema.NewNews` | src/db/News.ts:84 | a new document's `readingTime` is its default 0, and the given fields are kept |
| `NewsSchema.PreSave` | src/db/News.ts:98-113 | `title`, `content` and every other field are unchanged; a slug is derived, in slug shape, only when the title was modified and the slug was empty, and otherwise the slug is kept; the reading time is recomputed from the whitespace runs when the content was modified, and otherwise kept |
| `NewsSchema.PreSaveDerivesSlug` | src/db/News.ts:99-104 | when the title was modified and the slug was empty, the slug becomes the title's slug, with the title's letters and digits |
| `NewsSchema.PreSaveIdempotent` | src/db/News.ts:98-113 | saving twice with the same modification flags gives the same document as saving once |
| `NewsSchema.PreSaveUnmodifiedKeepsDerived` | src/db/News.ts:98-113 | a save that modifies neither title nor content leaves the document unchanged |
| `CourseSchema.NewCourse` | src/db/Course.ts:100-101 | a new course has both aggregates at 0 and no ratings, which is consistent |
| `CourseSchema.PreSave` | src/db/Course.ts:132-144 | the ratings and every other field are unchanged; after a save that modified the ratings, `totalRatings` is the number of ratings, `averageRating * totalRatings` is their sum, and the average is 0 with no ratings; without that flag both aggregates keep their values |
| `CourseSchema.SumAppend` | src/db/Course.ts:135 | the running sum of a concatenation is the sum of the parts' sums |
| `CourseSchema.SumPermutation` | src/db/Course.ts:135 | the sum is the same for any reordering of the values |
| `CourseSchema.SumBounds` | src/db/Course.ts:135 | `n` values within `[lo, hi]` sum to between `n * lo` and `n * hi` |
| `CourseSchema.AggregateOfRatings` | src/db/Course.ts:134-137 | with at least one rating, the count is the number of ratings and average times count is the sum |
| `CourseSchema.AggregateOfNoRatings` | src/db/Course.ts:138-141 | with no ratings, average and count are both 0 |
| `CourseSchema.AverageWithinBounds` | src/db/Course.ts:134-136 | if every rating respects the schema's 1..5 bounds (`src/db/Course.ts` line 95), a non-empty average lies within 1..5 |
| `CourseSchema.AggregateIgnoresOrder` | src/db/Course.ts:135-137 | two rating lists with the same multiset of values get the same average and count |
| `CourseSchema.PreSaveIdempotent` | src/db/Course.ts:132-144 | running the hook twice equals running it once |
| `CourseSchema.SaveKeepsConsistent` | src/db/Course.ts:132-144 | starting from consistent aggregates, a save keeps them consistent, provided any change to the ratings is flagged as modified and the aggregates are not written directly |
| `UniqueIndex.Insert` | src/db/Enrollment.ts:25-26 | an insert is refused with a duplicate-key error exactly when a stored document has the same key, and then the collection is unchanged; otherwise exactly the new document is added; at most one document per key is preserved |
| `UniqueIndex.InsertAll` | src/db/Enrollment.ts:25-26 | a sequence of inserts keeps at most one document per key, never removes a document, only adds documents from the sequence, and leaves every inserted document's key held by a stored document |
| `FollowSchema.NewFollow` | src/db/Follow.ts:14 | a new follow links the given users and is stamped with the current time |
| `FollowSchema.Save` | src/db/Follow.ts:20-28 | a self-follow is refused with "A user cannot follow themselves." and the collection is unchanged; an existing ordered pair is refused with a duplicate-key error and the collection is unchanged; otherwise exactly the new follow is added; no self-follow and no duplicate pair is preserved |
| `FollowSchema.SaveAll` | src/db/Follow.ts:20-28 | any sequence of saves keeps the collection free of self-follows and duplicate pairs, never removes a follow, and leaves every saved pair of distinct users stored |
| `FollowSchema.SavesFromEmptyAreValid` | src/db/Follow.ts:20-28 | after any sequence of saves from an empty collection there is no self-follow, and each ordered pair of distinct users that was saved has exactly one follow |
| `FollowSchema.FollowBackAllowed` | src/db/Follow.ts:20 | uniqueness is on the ordered pair: after `a` follows `b`, `b` may follow `a` |
| `FollowSchema.SecondFollowRefused` | src/db/Follow.ts:20 | following the same user again is refused and leaves the collection unchanged |
| `EnrollmentSchema.ApplyDefaults` | src/db/Enrollment.ts:17-20 | unset fields take the schema defaults: `progress` 0, and `enrolledAt` and `lastAccessedAt` the current time; the ids, `completedAt` and every given `progress`, `enrolledAt` and `lastAccessedAt` are kept |
| `EnrollmentSchema.Create` | src/db/Enrollment.ts:25-26 | an enrollment for a (course, user) pair already enrolled is refused with a duplicate-key error and the collection is unchanged; otherwise exactly the new enrollment is added; at most one enrollment per pair is preserved |
| `EnrollmentSchema.CreateAll` | src/db/Enrollment.ts:25-26 | any sequence of creates keeps at most one enrollment per pair, never removes one, and leaves every created (course, user) pair enrolled |
| `EnrollmentSchema.CreatesFromEmptyAreUnique` | src/db/Enrollment.ts:25-26 | after any sequence of creates from an empty collection, each (course, user) pair that was created has exactly one enrollment |
| `EnrollmentSchema.SecondEnrollmentRefused` | src/db/Enrollment.ts:26 | a second enrollment of the same user in the same course is refused, whatever its other fields |
| `EnrollmentSchema.KeyIsThePair` | src/db/Enrollment.ts:26 | the key is the pair only: the same user may enrol in another course, and another user in the same course |
| `EnrollmentSchema.NoProgressOrDateCheck` | src/db/Enrollment.ts:14-21 | the schema bounds neither `progress` nor the order of `completedAt` after `enrolledAt`: a draft with progress 150 and completion before enrolment is stored as given |

## Left out

- Mongoose mechanics are not modelled: how `isModified` tracks changes, the order of `required` validation against user hooks, and the `next()` callback. `isModified` is a boolean input, and hooks are pure functions.
- The unique index on the News `slug` (`src/db/News.ts:47`) and the `required` validators are not modelled. They are not part of the hooks.
- NewsSchema.PreSave: Mongoose runs `validate` before user `pre('save')` hooks, and `slug` is `required: true` (`src/db/News.ts:47`). So a save with an empty slug fails validation before the derivation can run. The model shows the hook on its own, as if validation let the document through.
- Concurrent writes racing between two saves are not modelled. Inserts are taken one at a time.
- FollowSchema.Save and EnrollmentSchema.Create model saves of new documents only. Mongoose also runs the Follow hook and checks both unique indexes when an existing document is saved again, such as an enrollment whose `progress` is updated; those updates are not modelled.
- The `createdAt` and `updatedAt` fields that `timestamps: true` adds to all four schemas (`src/db/News.ts:86`, `src/db/Course.ts:116`, `src/db/Follow.ts:16`, `src/db/Enrollment.ts:22`) are not modelled. No hook reads them.
- Slug.ToLower: lower-cases ASCII letters only. JavaScript's `toLowerCase` also maps a few non-ASCII letters to ASCII ones, such as the Kelvin sign to `k`. The model treats those letters as separators, so titles are assumed to be ASCII.
- ReadingTime.IsSpace: covers the six ASCII whitespace characters only. JavaScript's `\s` also matches Unicode spaces and line terminators, which the model treats as word characters.
- CourseSchema.PreSave: the average is the exact real mean. The source uses IEEE-754 division, and its rounding is not modelled.
- ReadingTime.CeilDiv: `Math.ceil` of a floating-point quotient is taken as the exact ceiling. Floating-point error matters only for word counts far beyond any real article.
- The other files are not modelled: `src/db/User.ts`, `Article.ts`, `ChatMessage.ts`, `ProjectIdea.ts`, `NewsletterSubscriber.ts` and `Comment.ts` declare fields and indexes only.
- The connection cache in `src/lib/db.ts` is not modelled: it is I/O.
- The mail client in `src/lib/email.ts` is not modelled: it is a network call.
- The polling hooks in `src/hooks/` are not modelled: they are UI state, fetch calls and timers.
- The embedded `enrollments` array of a Course (`src/db/Course.ts:83-91`) has no uniqueness rule in the schema, so it is not modelled.

=== FILE: course.dfy ===
/** The Course document's rating aggregate and the pre-save hook that keeps
    it: when `ratings` was modified, `totalRatings` becomes the number of
    ratings and `averageRating` their mean, both 0 for no ratings. The mean
    is an exact `real`; the source computes it in floating point. */
module CourseSchema {
  import opened ObjectIds
  import opened Optional

  /** Lowest and highest value the schema admits for a rating. */
  const MinRating: real := 1.0
  const MaxRating: real := 5.0

  /** One entry of the embedded `ratings` array. `createdAt` is a time in
      milliseconds; `review` is optional. */
  datatype Rating = Rating(userId: ObjectId, rating: real, review: Option<string>, createdAt: int)

  /** The fields the hook reads or writes; every other field of the schema
      is carried in `other`, which the hook never touches. */
  datatype Course<Other> = Course(
    ratings: seq<Rating>,
    averageRating: real,
    totalRatings: nat,
    other: Other)

  /** The schema's `min: 1, max: 5` on `rating`. */
  predicate ValidRating(r: Rating)
  {
    MinRating <= r.rating <= MaxRating
  }

  predicate AllValid(rs: seq<Rating>)
  {
    forall i :: 0 <= i < |rs| ==> ValidRating(rs[i])
  }

  /** The rating values, in order. */
  function Values(rs: seq<Rating>): (vs: seq<real>)
    ensures |vs| == |rs|
    ensures forall i :: 0 <= i < |rs| ==> vs[i] == rs[i].rating
  {
    seq(|rs|, i requires 0 <= i < |rs| => rs[i].rating)
  }

  /** `reduce((sum, rating) => sum + rating.rating, 0)` over the values. */
  function Sum(vs: seq<real>): real
  {
    if vs == [] then 0.0 else Sum(vs[..|vs| - 1]) + vs[|vs| - 1]
  }

  /** The aggregate fields describe the ratings exactly. */
  ghost predicate Consistent<Other>(c: Course<Other>)
  {
    && c.totalRatings == |c.ratings|
    && c.averageRating * (c.totalRatings as real) == Sum(Values(c.ratings))
    && (c.ratings == [] ==> c.averageRating == 0.0)
  }

  /** A new course: no ratings and both aggregates at their default 0. */
  function NewCourse<Other>(other: Other): (c: Course<Other>)
    ensures Consistent(c)
    ensures c.averageRating == 0.0 && c.totalRatings == 0 && c.other == other
  {
    Course([], 0.0, 0, other)
  }

  /** The pre-save hook. */
  function PreSave<Other>(c: Course<Other>, ratingsModified: bool): (r: Course<Other>)
    ensures r.ratings == c.ratings && r.other == c.other
    ensures ratingsModified ==> Consistent(r)
    ensures !ratingsModified ==> r.averageRating == c.averageRating && r.totalRatings == c.totalRatings
  {
    if !ratingsModified then c
    else if |c.ratings| > 0 then
      var total := Sum(Values(c.ratings));
      c.(averageRating := total / (|c.ratings| as real), totalRatings := |c.ratings|)
    else
      c.(averageRating := 0.0, totalRatings := 0)
  }

  // ---------------------------------------------------------------------
  // Facts about the sum.

  lemma {:induction false} SumAppend(a: seq<real>, b: seq<real>)
    ensures Sum(a + b) == Sum(a) + Sum(b)
    decreases |b|
  {
    if b == [] {
      assert a + b == a;
    } else {
      var b' := b[..|b| - 1];
      assert (a + b)[..|a + b| - 1] == a + b';
      SumAppend(a, b');
    }
  }

  /** The sum is the same for every ordering of the values. */
  lemma {:induction false} SumPermutation(a: seq<real>, b: seq<real>)
    requires multiset(a) == multiset(b)
    ensures Sum(a) == Sum(b)
    decreases |a|
  {
    if a != [] {
      var x := a[|a| - 1];
      assert x in multiset(b);
      var k :| 0 <= k < |b| && b[k] == x;
      SameRest(a, b, k);
      SumPermutation(a[..|a| - 1], b[..k] + b[k + 1..]);
      SumWithoutAt(b, k);
    }
  }

  /** Removing the last element of `a` and a copy of it from `b` keeps the
      multisets equal. */
  lemma SameRest<T>(a: seq<T>, b: seq<T>, k: int)
    requires multiset(a) == multiset(b) && a != []
    requires 0 <= k < |b| && b[k] == a[|a| - 1]
    ensures multiset(a[..|a| - 1]) == multiset(b[..k] + b[k + 1..])
  {
    MultisetWithoutAt(a, |a| - 1);
    MultisetWithoutAt(b, k);
    assert a[|a| - 1 + 1..] == [];
  }

  /** Taking the element at `k` out of the sum and adding it back. */
  lemma SumWithoutAt(b: seq<real>, k: int)
    requires 0 <= k < |b|
    ensures Sum(b) == Sum(b[..k] + b[k + 1..]) + b[k]
  {
    var x := b[k];
    assert b == b[..k] + [x] + b[k + 1..];
    SumAppend(b[..k], [x]);
    SumAppend(b[..k] + [x], b[k + 1..]);
    SumAppend(b[..k], b[k + 1..]);
    assert Sum([x]) == x by { assert [x][..0] == []; }
  }

  /** Removing the element at `k` removes one copy of it from the multiset. */
  lemma MultisetWithoutAt<T>(s: seq<T>, k: int)
    requires 0 <= k < |s|
    ensures multiset(s[..k] + s[k + 1..]) == multiset(s) - multiset{s[k]}
  {
    assert s == s[..k] + [s[k]] + s[k + 1..];
  }

  /** Values within [lo, hi] sum to within [n * lo, n * hi]. */
  lemma {:induction false} SumBounds(vs: seq<real>, lo: real, hi: real)
    requires forall i :: 0 <= i < |vs| ==> lo <= vs[i] <= hi
    ensures (|vs| as real) * lo <= Sum(vs) <= (|vs| as real) * hi
    decreases |vs|
  {
    if vs != [] {
      SumBounds(vs[..|vs| - 1], lo, hi);
    }
  }

  /** A total between `n * lo` and `n * hi` has its quotient by `n` between
      `lo` and `hi`. */
  lemma QuotientBetween(total: real, n: real, lo: real, hi: real)
    requires n > 0.0 && n * lo <= total <= n * hi
    ensures lo <= total / n <= hi
  {
  }

  // ---------------------------------------------------------------------
  // Properties of the hook.

  /** With at least one rating, the count is the number of ratings and
      average times count is the sum of the values. */
  lemma AggregateOfRatings<Other>(c: Course<Other>)
    requires |c.ratings| > 0
    ensures var r := PreSave(c, true);
      && r.totalRatings == |c.ratings|
      && r.averageRating * (r.totalRatings as real) == Sum(Values(c.ratings))
  {
  }

  /** With no ratings both aggregates are 0. */
  lemma AggregateOfNoRatings<Other>(c: Course<Other>)
    requires c.ratings == []
    ensures PreSave(c, true).averageRating == 0.0 && PreSave(c, true).totalRatings == 0
  {
  }

  /** Ratings within the schema's bounds give an average within the same
      bounds. */
  lemma AverageWithinBounds<Other>(c: Course<Other>)
    requires |c.ratings| > 0 && AllValid(c.ratings)
    ensures MinRating <= PreSave(c, true).averageRating <= MaxRating
  {
    var vs := Values(c.ratings);
    SumBounds(vs, MinRating, MaxRating);
    QuotientBetween(Sum(vs), |vs| as real, MinRating, MaxRating);
  }

  /** The aggregates depend only on the multiset of rating values: any
      reordering of the ratings, or a change of who gave them, yields the
      same average and count. */
  lemma AggregateIgnoresOrder<Other>(c: Course<Other>, d: Course<Other>)
    requires multiset(Values(c.ratings)) == multiset(Values(d.ratings))
    ensures PreSave(c, true).averageRating == PreSave(d, true).averageRating
    ensures PreSave(c, true).totalRatings == PreSave(d, true).totalRatings
  {
    assert |Values(c.ratings)| == |multiset(Values(c.ratings))|;
    assert |Values(d.ratings)| == |multiset(Values(d.ratings))|;
    SumPermutation(Values(c.ratings), Values(d.ratings));
  }

  /** Running the hook twice is running it once. */
  lemma PreSaveIdempotent<Other>(c: Course<Other>, ratingsModified: bool)
    ensures PreSave(PreSave(c, ratingsModified), ratingsModified) == PreSave(c, ratingsModified)
  {
  }

  /** The aggregates stay exact across saves as long as every save that
      changes `ratings` reports it as modified and nothing else writes the
      aggregate fields. */
  lemma SaveKeepsConsistent<Other>(stored: Course<Other>, edited: Course<Other>, ratingsModified: bool)
    requires Consistent(stored)
    requires !ratingsModified ==>
      edited.ratings == stored.ratings
      && edited.averageRating == stored.averageRating
      && edited.totalRatings == stored.totalRatings
    ensures Consistent(PreSave(edited, ratingsModified))
  {
  }
}

=== FILE: enrollment.dfy ===
/** The Enrollment collection: a unique index on (courseId, userId) lets a
    user enrol in a course at most once. New documents take the schema
    defaults: `progress` 0 and `enrolledAt`/`lastAccessedAt` the time of
    creation. The schema checks neither the range of `progress` nor the
    order of `completedAt` and `enrolledAt`, and neither does this model. */
module EnrollmentSchema {
  import opened ObjectIds
  import opened Optional
  import opened UniqueIndex

  /** Times are milliseconds; `progress` is a JavaScript number. */
  datatype Enrollment = Enrollment(
    courseId: ObjectId,
    userId: ObjectId,
    enrolledAt: int,
    completedAt: Option<int>,
    progress: real,
    lastAccessedAt: Option<int>)

  /** What a caller passes to `Enrollment.create`: the required ids and any
      of the optional fields. */
  datatype Draft = Draft(
    courseId: ObjectId,
    userId: ObjectId,
    enrolledAt: Option<int>,
    completedAt: Option<int>,
    progress: Option<real>,
    lastAccessedAt: Option<int>)

  const DefaultProgress: real := 0.0

  /** Mongoose fills every unset field that has a default; `now` stands for
      `Date.now`. */
  function ApplyDefaults(d: Draft, now: int): (e: Enrollment)
    ensures e.courseId == d.courseId && e.userId == d.userId
    ensures d.progress.None? ==> e.progress == 0.0
    ensures d.progress.Some? ==> e.progress == d.progress.value
    ensures d.enrolledAt.None? ==> e.enrolledAt == now
    ensures d.enrolledAt.Some? ==> e.enrolledAt == d.enrolledAt.value
    ensures d.lastAccessedAt.None? ==> e.lastAccessedAt == Some(now)
    ensures d.lastAccessedAt.Some? ==> e.lastAccessedAt == d.lastAccessedAt
    ensures e.completedAt == d.completedAt
  {
    Enrollment(
      d.courseId,
      d.userId,
      d.enrolledAt.WithDefault(now),
      d.completedAt,
      d.progress.WithDefault(DefaultProgress),
      Some(d.lastAccessedAt.WithDefault(now)))
  }

  /** The key of the unique index. */
  function Key(e: Enrollment): (ObjectId, ObjectId)
  {
    (e.courseId, e.userId)
  }

  /** `Enrollment.create(draft)` at time `now`. */
  function Create(docs: set<Enrollment>, d: Draft, now: int): (r: Write<Enrollment>)
    ensures KeyTaken(docs, Key, ApplyDefaults(d, now)) ==> r == Rejected(DuplicateKey, docs)
    ensures !KeyTaken(docs, Key, ApplyDefaults(d, now)) ==> r == Committed(docs + {ApplyDefaults(d, now)})
    ensures Unique(docs, Key) ==> Unique(r.docs, Key)
  {
    Insert(docs, Key, ApplyDefaults(d, now))
  }

  /** Creates `ds` one after another at the times `times`, ignoring
      refusals. */
  function CreateAll(docs: set<Enrollment>, ds: seq<Draft>, times: seq<int>): (r: set<Enrollment>)
    requires |times| == |ds|
    ensures Unique(docs, Key) ==> Unique(r, Key)
    ensures docs <= r
    ensures forall i :: 0 <= i < |ds| ==> KeyTaken(r, Key, ApplyDefaults(ds[i], times[i]))
  {
    var es := seq(|ds|, i requires 0 <= i < |ds| => ApplyDefaults(ds[i], times[i]));
    assert forall i :: 0 <= i < |ds| ==> es[i] == ApplyDefaults(ds[i], times[i]);
    InsertAll(docs, Key, es)
  }

  /** After any sequence of creates from an empty collection, each (course,
      user) pair has at most one enrollment. */
  lemma CreatesFromEmptyAreUnique(ds: seq<Draft>, times: seq<int>)
    requires |times| == |ds|
    ensures var docs := CreateAll({}, ds, times);
      && (forall a, b :: a in docs && b in docs && a.courseId == b.courseId && a.userId == b.userId ==> a == b)
      && (forall i :: 0 <= i < |ds| ==> KeyTaken(docs, Key, ApplyDefaults(ds[i], times[i])))
  {
  }

  /** A second enrollment of the same user in the same course is refused,
      whatever its other fields. */
  lemma SecondEnrollmentRefused(docs: set<Enrollment>, d1: Draft, d2: Draft, t1: int, t2: int)
    requires Create(docs, d1, t1).Committed?
    requires d2.courseId == d1.courseId && d2.userId == d1.userId
    ensures var after := Create(docs, d1, t1).docs;
      Create(after, d2, t2) == Rejected(DuplicateKey, after)
  {
  }

  /** The key is the pair only: a user enrolled in one course may enrol in
      another, and another user may enrol in the same course. */
  lemma KeyIsThePair(d: Draft, c2: ObjectId, u2: ObjectId, t1: int, t2: int, t3: int)
    requires c2 != d.courseId && u2 != d.userId
    ensures var one := Create({}, d, t1).docs;
      && Create(one, d.(courseId := c2), t2).Committed?
      && Create(one, d.(userId := u2), t3).Committed?
  {
  }

  /** The schema does not bound `progress` nor order `completedAt` after
      `enrolledAt`: such a draft is stored as given. */
  lemma NoProgressOrDateCheck(d: Draft, now: int)
    requires d.progress == Some(150.0)
    requires d.enrolledAt == Some(10) && d.completedAt == Some(5)
    ensures Create({}, d, now).Committed?
    ensures var e := ApplyDefaults(d, now); e.progress == 150.0 && e.completedAt == Some(5)
  {
  }
}

=== FILE: follow.dfy ===
/** The Follow collection: a pre-save hook refuses a user following
    themselves, and a unique index on the ordered pair (follower, following)
    refuses a second copy of an edge. The hook runs before the write reaches
    the index, so a refused self-follow never touches the collection. */
module FollowSchema {
  import opened ObjectIds
  import opened UniqueIndex

  /** `followedAt` defaults to the time of creation (milliseconds). */
  datatype Follow = Follow(follower: ObjectId, following: ObjectId, followedAt: int)

  /** The message the hook passes to `next`. */
  const SelfFollowMessage: string := "A user cannot follow themselves."

  /** The key of the unique index: the ordered pair. */
  function Edge(f: Follow): (ObjectId, ObjectId)
  {
    (f.follower, f.following)
  }

  /** A new follow stamped with the current time `now`. */
  function NewFollow(follower: ObjectId, following: ObjectId, now: int): (f: Follow)
    ensures Edge(f) == (follower, following) && f.followedAt == now
  {
    Follow(follower, following, now)
  }

  /** No stored follow is a self-follow. */
  ghost predicate NoSelfFollows(docs: set<Follow>)
  {
    forall f :: f in docs ==> f.follower != f.following
  }

  /** The collection invariant the hook and the index together maintain. */
  ghost predicate Valid(docs: set<Follow>)
  {
    NoSelfFollows(docs) && Unique(docs, Edge)
  }

  /** `Follow.create(f)` / `f.save()` for a new document. */
  function Save(docs: set<Follow>, f: Follow): (r: Write<Follow>)
    ensures f.follower == f.following ==> r == Rejected(HookError(SelfFollowMessage), docs)
    ensures f.follower != f.following && KeyTaken(docs, Edge, f) ==>
      r == Rejected(DuplicateKey, docs)
    ensures f.follower != f.following && !KeyTaken(docs, Edge, f) ==>
      r == Committed(docs + {f})
    ensures Valid(docs) ==> Valid(r.docs)
  {
    if f.follower == f.following then Rejected(HookError(SelfFollowMessage), docs)
    else Insert(docs, Edge, f)
  }

  /** Saves `fs` one after another, ignoring refusals. */
  function SaveAll(docs: set<Follow>, fs: seq<Follow>): (r: set<Follow>)
    ensures Valid(docs) ==> Valid(r)
    ensures docs <= r
    ensures forall i :: 0 <= i < |fs| && fs[i].follower != fs[i].following ==> KeyTaken(r, Edge, fs[i])
    decreases |fs|
  {
    if fs == [] then docs else SaveAll(Save(docs, fs[0]).docs, fs[1..])
  }

  /** Starting from an empty collection, any sequence of saves leaves no
      self-follow and at most one follow per ordered pair. */
  lemma SavesFromEmptyAreValid(fs: seq<Follow>)
    ensures var docs := SaveAll({}, fs);
      && (forall f :: f in docs ==> f.follower != f.following)
      && (forall f, g :: f in docs && g in docs && Edge(f) == Edge(g) ==> f == g)
      && (forall i :: 0 <= i < |fs| && fs[i].follower != fs[i].following ==> KeyTaken(docs, Edge, fs[i]))
  {
  }

  /** Uniqueness is on the ordered pair: once `a` follows `b`, `b` may still
      follow `a`. */
  lemma FollowBackAllowed(a: ObjectId, b: ObjectId, t1: int, t2: int)
    requires a != b
    ensures var first := Save({}, NewFollow(a, b, t1));
      && first.Committed?
      && Save(first.docs, NewFollow(b, a, t2)) == Committed({NewFollow(a, b, t1), NewFollow(b, a, t2)})
  {
  }

  /** Following the same user again is refused, whatever the time stamp. */
  lemma SecondFollowRefused(docs: set<Follow>, a: ObjectId, b: ObjectId, t1: int, t2: int)
    requires a != b
    requires Save(docs, NewFollow(a, b, t1)).Committed?
    ensures var after := Save(docs, NewFollow(a, b, t1)).docs;
      Save(after, NewFollow(a, b, t2)) == Rejected(DuplicateKey, after)
  {
  }
}

=== FILE: news.dfy ===
/** The News document and its pre-save hook. The hook fills in an empty
    `slug` from a modified `title`, and recomputes `readingTime` whenever
    `content` is modified. Mongoose's `isModified` tracking is taken as two
    boolean inputs. */
module NewsSchema {
  import Slug
  import ReadingTime

  /** The fields the hook reads or writes; every other field of the schema
      (excerpt, author, status, tags, engagement, ...) is carried in
      `other`, which the hook never touches. */
  datatype News<Other> = News(
    title: string,
    slug: string,
    content: string,
    readingTime: nat,
    other: Other)

  /** The `readingTime` default of a new document. */
  const DefaultReadingTime: nat := 0

  /** A freshly built document: `readingTime` takes its schema default. */
  function NewNews<Other>(title: string, slug: string, content: string, other: Other): (n: News<Other>)
    ensures n.readingTime == 0
    ensures n.title == title && n.slug == slug && n.content == content && n.other == other
  {
    News(title, slug, content, DefaultReadingTime, other)
  }

  /** The pre-save hook. An empty `slug` counts as unset (`!this.slug`). */
  function PreSave<Other>(doc: News<Other>, titleModified: bool, contentModified: bool): (r: News<Other>)
    ensures r.title == doc.title && r.content == doc.content && r.other == doc.other
    ensures titleModified && doc.slug == [] ==> Slug.IsSlug(r.slug)
    ensures !(titleModified && doc.slug == []) ==> r.slug == doc.slug
    ensures contentModified ==>
      && r.readingTime >= 1
      && (r.readingTime - 1) * ReadingTime.WordsPerMinute
         < ReadingTime.SpaceRuns(doc.content) + 1
         <= r.readingTime * ReadingTime.WordsPerMinute
    ensures !contentModified ==> r.readingTime == doc.readingTime
  {
    var slug := if titleModified && doc.slug == [] then Slug.Slugify(doc.title) else doc.slug;
    var readingTime := if contentModified then ReadingTime.ReadingTime(doc.content) else doc.readingTime;
    doc.(slug := slug, readingTime := readingTime)
  }

  /** The derived slug is the title's slug, exactly when the slug was empty
      and the title was modified. */
  lemma PreSaveDerivesSlug<Other>(doc: News<Other>, titleModified: bool, contentModified: bool)
    requires titleModified && doc.slug == []
    ensures PreSave(doc, titleModified, contentModified).slug == Slug.Slugify(doc.title)
    ensures Slug.Alnums(PreSave(doc, titleModified, contentModified).slug)
            == Slug.Alnums(Slug.LowerCase(doc.title))
  {
  }

  /** Saving again with the same modification flags changes nothing: both
      derived fields are pure functions of fields the hook leaves alone, and
      a slug set by the first save (or left empty because the title holds no
      letter or digit) is derived the same way by the second. */
  lemma PreSaveIdempotent<Other>(doc: News<Other>, titleModified: bool, contentModified: bool)
    ensures var once := PreSave(doc, titleModified, contentModified);
      PreSave(once, titleModified, contentModified) == once
  {
  }

  /** A later save that does not modify the title never replaces a slug,
      and one that does not modify the content keeps the reading time. */
  lemma PreSaveUnmodifiedKeepsDerived<Other>(doc: News<Other>)
    ensures PreSave(doc, false, false) == doc
  {
  }
}

=== FILE: object_id.dfy ===
/** Document identifiers shared by the collections. */
module ObjectIds {

  /** A MongoDB `ObjectId`. Only equality of identifiers matters to the
      hooks and indexes, so a natural number stands for one. */
  type ObjectId = nat
}

=== FILE: optional.dfy ===
/** Document fields a caller may leave unset. */
module Optional {

  /** A field that is either unset or holds a value. */
  datatype Option<+T> = None | Some(value: T) {

    /** What the field holds once Mongoose has applied the schema default
        `default`: a given value is kept, an unset field takes the default. */
    function WithDefault(default: T): (r: T)
      ensures Some? ==> r == value
      ensures None? ==> r == default
    {
      if Some? then value else default
    }
  }
}

=== FILE: reading_time.dfy ===
/** The reading-time derivation of the News pre-save hook: the content is
    split at whitespace runs, and the reading time is the number of pieces
    divided by 200 words per minute, rounded up. The "word count" is the
    number of pieces, which is one more than the number of maximal
    whitespace runs: empty content, and content with leading or trailing
    whitespace, count pieces that hold no word. Whitespace is restricted
    to the six ASCII characters of `\s`. */
module ReadingTime {

  /** Words per minute assumed by the hook. */
  const WordsPerMinute: nat := 200

  /** `\s` restricted to ASCII: space, tab, line feed, carriage return,
      vertical tab and form feed. */
  predicate IsSpace(c: char)
  {
    c == ' ' || c == '\t' || c == '\n' || c == '\r' || c == '\U{000B}' || c == '\U{000C}'
  }

  /** `w` holds no whitespace character. */
  predicate NoSpace(w: string)
  {
    forall i :: 0 <= i < |w| ==> !IsSpace(w[i])
  }

  /** Drops the maximal leading run of whitespace: what the greedy `\s+`
      consumes at the front of `s`. */
  function SkipSpaces(s: string): (r: string)
    ensures |r| <= |s|
    ensures s != [] && IsSpace(s[0]) ==> |r| < |s|
    ensures r == [] || !IsSpace(r[0])
  {
    if s == [] || !IsSpace(s[0]) then s else SkipSpaces(s[1..])
  }

  /** `s.split(/\s+/)`: the pieces between maximal whitespace runs, including
      the empty piece before a leading run and after a trailing one. */
  function Split(s: string): (pieces: seq<string>)
    ensures |pieces| >= 1
    ensures forall k :: 0 <= k < |pieces| ==> NoSpace(pieces[k])
    decreases |s|
  {
    if s == [] then [[]]
    else if IsSpace(s[0]) then [[]] + Split(SkipSpaces(s))
    else
      var rest := Split(s[1..]);
      [[s[0]] + rest[0]] + rest[1..]
  }

  /** The word count the hook computes: `split(/\s+/).length`, which is one
      more than the number of whitespace runs. */
  function WordCount(content: string): (n: nat)
    ensures n == SpaceRuns(content) + 1
  {
    SplitCountsRuns(content);
    |Split(content)|
  }

  /** The number of maximal whitespace runs in `s`, counted as the positions
      where whitespace follows a non-whitespace character or the start
      (`inRun` says whether the character before `s` was whitespace). */
  function RunsFrom(s: string, inRun: bool): nat
  {
    if s == [] then 0
    else (if IsSpace(s[0]) && !inRun then 1 else 0) + RunsFrom(s[1..], IsSpace(s[0]))
  }

  function SpaceRuns(s: string): nat
  {
    RunsFrom(s, false)
  }

  /** `Math.ceil(n / d)` for a natural `n` and a positive `d`. */
  function CeilDiv(n: nat, d: nat): (q: nat)
    requires d > 0
    ensures (q - 1) * d < n <= q * d
  {
    (n + d - 1) / d
  }

  // ---------------------------------------------------------------------
  // The word count is the number of whitespace runs plus one.

  lemma {:induction false} RunsAfterWhitespace(t: string)
    ensures RunsFrom(t, true) == RunsFrom(SkipSpaces(t), false)
    decreases |t|
  {
    if t != [] && IsSpace(t[0]) {
      RunsAfterWhitespace(t[1..]);
    }
  }

  lemma {:induction false} SplitCountsRuns(s: string)
    ensures |Split(s)| == SpaceRuns(s) + 1
    decreases |s|
  {
    if s == [] {
    } else if IsSpace(s[0]) {
      SplitCountsRuns(SkipSpaces(s));
      RunsAfterWhitespace(s[1..]);
      assert SkipSpaces(s) == SkipSpaces(s[1..]);
    } else {
      SplitCountsRuns(s[1..]);
    }
  }

  /** Reading time in whole minutes, as the hook stores it. */
  function ReadingTime(content: string): (minutes: nat)
    ensures (minutes - 1) * WordsPerMinute < SpaceRuns(content) + 1 <= minutes * WordsPerMinute
    ensures minutes >= 1
  {
    CeilDiv(WordCount(content), WordsPerMinute)
  }

  // ---------------------------------------------------------------------
  // Splitting undoes joining words with single spaces.

  /** A word: non-empty, without whitespace. */
  predicate IsWord(w: string)
  {
    w != [] && NoSpace(w)
  }

  /** The words of `ws` with one space between neighbours. */
  function JoinWithSpaces(ws: seq<string>): string
    requires |ws| >= 1
  {
    if |ws| == 1 then ws[0] else ws[0] + ([' '] + JoinWithSpaces(ws[1..]))
  }

  /** Characters without whitespace extend the first piece. */
  lemma {:induction false} SplitExtendsFirstPiece(w: string, t: string)
    requires NoSpace(w)
    ensures Split(w + t) == [w + Split(t)[0]] + Split(t)[1..]
    decreases |w|
  {
    if w == [] {
      assert w + t == t;
      assert [] + Split(t)[0] == Split(t)[0];
      assert Split(t) == [Split(t)[0]] + Split(t)[1..];
    } else {
      var x := w + t;
      assert x[0] == w[0] && x[1..] == w[1..] + t;
      SplitExtendsFirstPiece(w[1..], t);
      assert [w[0]] + (w[1..] + Split(t)[0]) == w + Split(t)[0];
    }
  }

  /** One space before a word starts a new piece. */
  lemma SplitAtSpace(t: string)
    requires t == [] || !IsSpace(t[0])
    ensures Split([' '] + t) == [[]] + Split(t)
  {
    assert ([' '] + t)[1..] == t;
    assert SkipSpaces([' '] + t) == SkipSpaces(t) == t;
  }

  lemma {:induction false} SplitJoin(ws: seq<string>)
    requires |ws| >= 1
    requires forall k :: 0 <= k < |ws| ==> IsWord(ws[k])
    ensures Split(JoinWithSpaces(ws)) == ws
    decreases |ws|
  {
    if |ws| == 1 {
      SplitExtendsFirstPiece(ws[0], []);
      assert ws[0] + [] == ws[0];
    } else {
      var rest := JoinWithSpaces(ws[1..]);
      SplitJoin(ws[1..]);
      assert rest == [] || !IsSpace(rest[0]) by {
        JoinStartsWithWord(ws[1..]);
      }
      SplitAtSpace(rest);
      SplitExtendsFirstPiece(ws[0], [' '] + rest);
      assert ws[0] + [] == ws[0];
      assert ws == [ws[0]] + ws[1..];
    }
  }

  lemma {:induction false} JoinStartsWithWord(ws: seq<string>)
    requires |ws| >= 1
    requires forall k :: 0 <= k < |ws| ==> IsWord(ws[k])
    ensures var j := JoinWithSpaces(ws); j != [] && !IsSpace(j[0])
  {
  }

  /** `n` single-space-separated words count as `n` words. */
  lemma WordCountOfJoinedWords(ws: seq<string>)
    requires |ws| >= 1
    requires forall k :: 0 <= k < |ws| ==> IsWord(ws[k])
    ensures WordCount(JoinWithSpaces(ws)) == |ws|
  {
    SplitJoin(ws);
  }

  /** 450 words separated by single spaces take three minutes. */
  lemma ReadingTimeOf450Words(ws: seq<string>)
    requires |ws| == 450
    requires forall k :: 0 <= k < |ws| ==> IsWord(ws[k])
    ensures ReadingTime(JoinWithSpaces(ws)) == 3
  {
    WordCountOfJoinedWords(ws);
  }

  /** Empty content still counts one piece, so one minute. */
  lemma ReadingTimeOfEmptyContent()
    ensures WordCount([]) == 1 && ReadingTime([]) == 1
  {
  }

  /** Leading and trailing whitespace each add an empty piece. */
  lemma WordCountOfPaddedWord()
    ensures WordCount(" a ") == 3
  {
    assert SkipSpaces(" a ") == "a ";
    assert SkipSpaces(" ") == [];
  }
}

=== FILE: slug.dfy ===
/** The slug derivation of the News pre-save hook: lower-case the title,
    replace every maximal run of characters outside [a-z0-9] by one dash,
    then remove one leading and one trailing dash. Lower-casing is
    modelled for ASCII letters only; every other character is kept as it
    is, and is then a separator because it lies outside [a-z0-9]. */
module Slug {

  const Dash: char := '-'

  /** `toLowerCase` on one character, restricted to ASCII. */
  function ToLower(c: char): char
  {
    if IsUpper(c) then (c as int - 'A' as int + 'a' as int) as char else c
  }

  predicate IsUpper(c: char)
  {
    'A' <= c <= 'Z'
  }

  /** `toLowerCase` on a string: no upper-case letter survives, each one
      becomes a letter of `[a-z]`, and every other character is kept. */
  function LowerCase(s: string): (r: string)
    ensures |r| == |s|
    ensures forall i :: 0 <= i < |r| ==> !IsUpper(r[i])
    ensures forall i :: 0 <= i < |s| ==> (if IsUpper(s[i]) then 'a' <= r[i] <= 'z' else r[i] == s[i])
    ensures forall i :: 0 <= i < |s| && IsUpper(s[i]) ==> r[i] as int - 'a' as int == s[i] as int - 'A' as int
  {
    seq(|s|, i requires 0 <= i < |s| => ToLower(s[i]))
  }

  /** The character class `[a-z0-9]`. */
  predicate IsAlnum(c: char)
  {
    'a' <= c <= 'z' || '0' <= c <= '9'
  }

  predicate IsSlugChar(c: char)
  {
    IsAlnum(c) || c == Dash
  }

  /** Drops the maximal leading run of characters outside `[a-z0-9]`: what
      the greedy `[^a-z0-9]+` consumes at the front of `s`. */
  function SkipRun(s: string): (r: string)
    ensures |r| <= |s|
    ensures s != [] && !IsAlnum(s[0]) ==> |r| < |s|
    ensures r == [] || IsAlnum(r[0])
  {
    if s == [] || IsAlnum(s[0]) then s else SkipRun(s[1..])
  }

  /** `s.replace(/[^a-z0-9]+/g, '-')`: scanning left to right, each maximal
      run of characters outside `[a-z0-9]` is replaced by one dash. What it
      emits is in `[a-z0-9-]` with no two dashes adjacent; it starts with a
      dash exactly when the input starts with a separator, and its letters
      and digits are those of the input. */
  function CollapseRuns(s: string): (r: string)
    ensures SlugBody(r)
    ensures r == [] <==> s == []
    ensures r != [] ==> (r[0] == Dash <==> !IsAlnum(s[0]))
    ensures Alnums(r) == Alnums(s)
    decreases |s|
  {
    if s == [] then []
    else if IsAlnum(s[0]) then
      var t := CollapseRuns(s[1..]);
      PrependKeepsSlugBody(s[0], t);
      AlnumsAppend([s[0]], t);
      [s[0]] + t
    else
      var t := CollapseRuns(SkipRun(s));
      PrependKeepsSlugBody(Dash, t);
      AlnumsAppend([Dash], t);
      AlnumsOfSkippedRun(s);
      [Dash] + t
  }

  /** `s.replace(/(^-|-$)/g, '')`: one leading and one trailing dash go.
      On "-" alone the leading alternative consumes the only dash. Applied
      to slug characters without doubled dashes, it leaves a slug with the
      same letters and digits. */
  function TrimDashes(s: string): (r: string)
    ensures || r == s
            || (|s| >= 1 && s[0] == Dash && r == s[1..])
            || (|s| >= 1 && s[|s| - 1] == Dash && r == s[..|s| - 1])
            || (|s| >= 2 && s[0] == Dash && s[|s| - 1] == Dash && r == s[1..|s| - 1])
    ensures SlugBody(s) ==> IsSlug(r) && Alnums(r) == Alnums(s)
  {
    LeadingDashDropped(s);
    TrailingDashDropped(DropLeadingDash(s));
    DropTrailingDash(DropLeadingDash(s))
  }

  function DropLeadingDash(s: string): string
  {
    if |s| > 0 && s[0] == Dash then s[1..] else s
  }

  function DropTrailingDash(s: string): string
  {
    if |s| > 0 && s[|s| - 1] == Dash then s[..|s| - 1] else s
  }

  /** The slug the hook derives from a title: it has the slug shape and
      keeps exactly the letters and digits of the lower-cased title, in
      order. */
  function Slugify(title: string): (slug: string)
    ensures IsSlug(slug)
    ensures Alnums(slug) == Alnums(LowerCase(title))
  {
    TrimDashes(CollapseRuns(LowerCase(title)))
  }

  /** No two dashes side by side. */
  predicate NoDoubleDash(s: string)
  {
    forall i :: 0 <= i < |s| - 1 ==> s[i] != Dash || s[i + 1] != Dash
  }

  /** The shape of every slug the hook derives: only `[a-z0-9-]`, no doubled
      dash, no dash at either end. */
  predicate IsSlug(s: string)
  {
    && (forall i :: 0 <= i < |s| ==> IsSlugChar(s[i]))
    && NoDoubleDash(s)
    && (s != [] ==> s[0] != Dash && s[|s| - 1] != Dash)
  }

  /** The letters and digits of `s`, in order. */
  function Alnums(s: string): string
  {
    if s == [] then [] else (if IsAlnum(s[0]) then [s[0]] else []) + Alnums(s[1..])
  }

  // ---------------------------------------------------------------------
  // An independent, position-local description of the run replacement:
  // mask every character outside [a-z0-9] as a dash, then drop each dash
  // that directly follows another dash.

  function Mask(s: string): string
  {
    seq(|s|, i requires 0 <= i < |s| => if IsAlnum(s[i]) then s[i] else Dash)
  }

  function Squeeze(s: string): string
  {
    if |s| < 2 then s
    else if s[0] == Dash && s[1] == Dash then Squeeze(s[1..])
    else [s[0]] + Squeeze(s[1..])
  }

  // ---------------------------------------------------------------------
  // Facts about the pieces.

  lemma {:induction false} AlnumsAppend(a: string, b: string)
    ensures Alnums(a + b) == Alnums(a) + Alnums(b)
  {
    if a == [] {
      assert a + b == b;
    } else {
      var h := if IsAlnum(a[0]) then [a[0]] else [];
      assert Alnums(a + b) == h + Alnums(a[1..] + b) by {
        assert (a + b)[0] == a[0];
        assert (a + b)[1..] == a[1..] + b;
      }
      AlnumsAppend(a[1..], b);
      assert h + (Alnums(a[1..]) + Alnums(b)) == (h + Alnums(a[1..])) + Alnums(b);
    }
  }

  lemma {:induction false} AlnumsOfSkippedRun(s: string)
    ensures Alnums(SkipRun(s)) == Alnums(s)
    decreases |s|
  {
    if s != [] && !IsAlnum(s[0]) {
      AlnumsOfSkippedRun(s[1..]);
    }
  }

  /** Putting a character in front keeps slug characters without doubled
      dashes, unless a dash lands in front of a dash. */
  lemma PrependKeepsSlugBody(c: char, t: string)
    requires IsSlugChar(c) && SlugBody(t)
    requires c == Dash ==> t == [] || t[0] != Dash
    ensures SlugBody([c] + t)
  {
    var r := [c] + t;
    forall i | 0 <= i < |r| - 1
      ensures r[i] != Dash || r[i + 1] != Dash
    {
      if i > 0 {
        assert r[i] == t[i - 1] && r[i + 1] == t[i];
      }
    }
  }

  lemma AlnumsOfDash()
    ensures Alnums([Dash]) == []
  {
  }

  /** Slug characters only, and no doubled dash. */
  predicate SlugBody(s: string)
  {
    (forall i :: 0 <= i < |s| ==> IsSlugChar(s[i])) && NoDoubleDash(s)
  }

  /** Dropping a leading dash keeps the letters and digits and leaves no
      dash in front. */
  lemma LeadingDashDropped(s: string)
    ensures var a := DropLeadingDash(s);
      SlugBody(s) ==> SlugBody(a) && (a != [] ==> a[0] != Dash) && Alnums(a) == Alnums(s)
  {
  }

  /** Then dropping a trailing dash leaves a slug with the same letters and
      digits. */
  lemma TrailingDashDropped(a: string)
    ensures SlugBody(a) && (a != [] ==> a[0] != Dash) ==>
      IsSlug(DropTrailingDash(a)) && Alnums(DropTrailingDash(a)) == Alnums(a)
  {
    if SlugBody(a) && |a| > 0 && a[|a| - 1] == Dash {
      var b := a[..|a| - 1];
      assert a == b + [Dash];
      AlnumsAppend(b, [Dash]);
      AlnumsOfDash();
      if |b| > 0 {
        assert b[|b| - 1] == a[|a| - 2];
        assert b[0] == a[0];
      }
    }
  }

  /** A string already in slug shape is its own slug. */
  lemma {:induction false} CollapseRunsFixesSlugChars(s: string)
    requires forall i :: 0 <= i < |s| ==> IsSlugChar(s[i])
    requires NoDoubleDash(s)
    ensures CollapseRuns(s) == s
    decreases |s|
  {
    if s == [] {
    } else if IsAlnum(s[0]) {
      CollapseRunsFixesSlugChars(s[1..]);
    } else {
      assert SkipRun(s) == s[1..] by {
        if |s| > 1 {
          assert s[1] != Dash;
          assert SkipRun(s[1..]) == s[1..];
        }
      }
      CollapseRunsFixesSlugChars(s[1..]);
    }
  }

  lemma SlugIsFixedPoint(s: string)
    requires IsSlug(s)
    ensures Slugify(s) == s
  {
    assert LowerCase(s) == s;
    CollapseRunsFixesSlugChars(s);
  }

  /** Deriving a slug from a slug changes nothing. */
  lemma SlugifyIdempotent(title: string)
    ensures Slugify(Slugify(title)) == Slugify(title)
  {
    SlugIsFixedPoint(Slugify(title));
  }

  lemma SlugWithoutAlnumsIsEmpty(s: string)
    requires IsSlug(s)
    requires Alnums(s) == []
    ensures s == []
  {
  }

  /** The slug comes out empty exactly when the lower-cased title holds no
      letter or digit, e.g. a title made only of punctuation and spaces. */
  lemma SlugifyEmptyIff(title: string)
    ensures Slugify(title) == [] <==> Alnums(LowerCase(title)) == []
  {
    if Alnums(LowerCase(title)) == [] {
      SlugWithoutAlnumsIsEmpty(Slugify(title));
    }
  }

  /** The run replacement agrees with "mask, then squeeze". */
  lemma {:induction false} SqueezeAfterDash(s: string)
    requires s != [] && !IsAlnum(s[0])
    ensures Squeeze([Dash] + Mask(s[1..])) == [Dash] + Squeeze(Mask(SkipRun(s)))
    decreases |s|
  {
    var m := Mask(s[1..]);
    if |s| == 1 {
      assert m == [];
      assert SkipRun(s) == [];
    } else if !IsAlnum(s[1]) {
      assert ([Dash] + m)[1..] == m;
      assert m == [Dash] + Mask(s[2..]);
      assert SkipRun(s) == SkipRun(s[1..]);
      assert s[1..][1..] == s[2..];
      SqueezeAfterDash(s[1..]);
    } else {
      assert SkipRun(s) == s[1..];
      assert ([Dash] + m)[1..] == m;
    }
  }

  lemma SqueezeKeepsLetter(c: char, t: string)
    requires c != Dash
    ensures Squeeze([c] + t) == [c] + Squeeze(t)
  {
  }

  lemma MaskCons(s: string)
    requires s != []
    ensures Mask(s) == [if IsAlnum(s[0]) then s[0] else Dash] + Mask(s[1..])
  {
  }

  lemma {:induction false} CollapseRunsIsMaskThenSqueeze(s: string)
    ensures CollapseRuns(s) == Squeeze(Mask(s))
    decreases |s|
  {
    if s == [] {
    } else if IsAlnum(s[0]) {
      CollapseRunsIsMaskThenSqueeze(s[1..]);
      MaskCons(s);
      SqueezeKeepsLetter(s[0], Mask(s[1..]));
    } else {
      CollapseRunsIsMaskThenSqueeze(SkipRun(s));
      MaskCons(s);
      SqueezeAfterDash(s);
    }
  }

  /** The derived slug, with the run replacement in its position-local
      form: lower-case, mask the separators, squeeze doubled dashes, trim. */
  lemma SlugifyIsMaskSqueezeTrim(title: string)
    ensures Slugify(title) == TrimDashes(Squeeze(Mask(LowerCase(title))))
  {
    CollapseRunsIsMaskThenSqueeze(LowerCase(title));
  }

  // ---------------------------------------------------------------------
  // Worked examples.

  /** Every character of `s` satisfies `IsAlnum` (recursive, so that it
      unfolds on a literal). */
  predicate AllAlnum(s: string)
  {
    s == [] || (IsAlnum(s[0]) && AllAlnum(s[1..]))
  }

  /** No character of `s` satisfies `IsAlnum`. */
  predicate AllSeparators(s: string)
  {
    s == [] || (!IsAlnum(s[0]) && AllSeparators(s[1..]))
  }

  lemma SplitHead(w: string, x: string)
    requires w != []
    ensures w + x == [w[0]] + (w[1..] + x)
  {
  }

  lemma CollapseRunsKeepsLetter(c: char, t: string)
    requires IsAlnum(c)
    ensures CollapseRuns([c] + t) == [c] + CollapseRuns(t)
  {
  }

  /** A word of letters and digits passes through the run replacement. */
  lemma {:induction false} CollapseRunsKeepsWord(w: string, t: string)
    requires forall i :: 0 <= i < |w| ==> IsAlnum(w[i])
    ensures CollapseRuns(w + t) == w + CollapseRuns(t)
  {
    if w == [] {
      assert w + t == t;
    } else {
      SplitHead(w, t);
      CollapseRunsKeepsLetter(w[0], w[1..] + t);
      CollapseRunsKeepsWord(w[1..], t);
      SplitHead(w, CollapseRuns(t));
    }
  }

  lemma {:induction false} AllAlnumElementwise(w: string)
    requires AllAlnum(w)
    ensures forall i :: 0 <= i < |w| ==> IsAlnum(w[i])
  {
    if w != [] {
      AllAlnumElementwise(w[1..]);
      assert forall i :: 1 <= i < |w| ==> w[i] == w[1..][i - 1];
    }
  }

  /** A run of separators in front of a word becomes one dash. */
  lemma CollapseRunsJoinsSeparators(p: string, t: string)
    requires p != [] && AllSeparators(p)
    requires t == [] || IsAlnum(t[0])
    ensures CollapseRuns(p + t) == [Dash] + CollapseRuns(t)
  {
    SkipRunPastSeparators(p, t);
  }

  lemma {:induction false} SkipRunPastSeparators(p: string, t: string)
    requires AllSeparators(p)
    requires t == [] || IsAlnum(t[0])
    ensures SkipRun(p + t) == t
    decreases |p|
  {
    if p == [] {
      assert p + t == t;
    } else {
      assert (p + t)[1..] == p[1..] + t;
      SkipRunPastSeparators(p[1..], t);
    }
  }

  /** The runs of leading and trailing separators must be absorbed by the
      run replacement without touching the words. */
  lemma CollapseRunsOfSeparatorsOnly(p: string)
    requires AllSeparators(p)
    ensures CollapseRuns(p) == if p == [] then [] else [Dash]
  {
  }

  lemma Regroup(a: string, b: string, c: string, d: string)
    ensures a + (b + (c + d)) == (a + (b + c)) + d
  {
  }

  lemma TrimFramedWords(w1: string, w2: string, lead: bool, trail: bool)
    requires w1 != [] && w2 != [] && w1[0] != Dash && w2[|w2| - 1] != Dash
    ensures var core := w1 + ([Dash] + w2);
      TrimDashes((if lead then [Dash] else []) + (core + (if trail then [Dash] else []))) == core
  {
    var core := w1 + ([Dash] + w2);
    var t := core + (if trail then [Dash] else []);
    var s := (if lead then [Dash] else []) + t;
    assert core[0] == w1[0] && core[|core| - 1] == w2[|w2| - 1];
    assert DropLeadingDash(s) == t by {
      if lead {
        assert s[1..] == t;
      } else {
        assert s == t;
      }
    }
    assert DropTrailingDash(t) == core by {
      if trail {
        assert t[..|t| - 1] == core;
      }
    }
  }

  /** Two words, separated by a run of separators and framed by optional
      runs of separators, give the two words joined by one dash. */
  lemma SlugOfTwoWords(lead: string, w1: string, mid: string, w2: string, trail: string)
    requires AllSeparators(lead) && AllSeparators(mid) && AllSeparators(trail) && mid != []
    requires AllAlnum(w1) && AllAlnum(w2) && w1 != [] && w2 != []
    ensures TrimDashes(CollapseRuns(lead + (w1 + (mid + (w2 + trail))))) == w1 + ([Dash] + w2)
  {
    AllAlnumElementwise(w1);
    AllAlnumElementwise(w2);
    var e := if trail == [] then [] else [Dash];
    CollapseRunsOfSeparatorsOnly(trail);
    CollapseRunsKeepsWord(w2, trail);
    var x2 := w2 + trail;
    CollapseRunsJoinsSeparators(mid, x2);
    var x3 := mid + x2;
    CollapseRunsKeepsWord(w1, x3);
    var x4 := w1 + x3;
    assert CollapseRuns(x4) == w1 + ([Dash] + (w2 + e));
    Regroup(w1, [Dash], w2, e);
    if lead == [] {
      assert lead + x4 == x4;
      assert CollapseRuns(lead + x4) == [] + ((w1 + ([Dash] + w2)) + e);
    } else {
      CollapseRunsJoinsSeparators(lead, x4);
    }
    TrimFramedWords(w1, w2, lead != [], trail != []);
  }

  // The examples take the title as a parameter fixed by `requires`: stated
  // on the literal directly, the verifier unfolds every function applied to
  // it, and the proof runs out of resources.

  lemma LowerCaseHelloWorld(title: string)
    requires title == "Hello, World!"
    ensures LowerCase(title) == [] + ("hello" + (", " + ("world" + "!")))
  {
  }

  lemma SlugifyHelloWorld(title: string)
    requires title == "Hello, World!"
    ensures Slugify(title) == "hello-world"
  {
    LowerCaseHelloWorld(title);
    assert AllAlnum("hello") && AllAlnum("world");
    assert AllSeparators([]) && AllSeparators(", ") && AllSeparators("!");
    SlugOfTwoWords([], "hello", ", ", "world", "!");
  }

  lemma LowerCaseDoubledSeparators(title: string)
    requires title == "  A--B  "
    ensures LowerCase(title) == "  " + ("a" + ("--" + ("b" + "  ")))
  {
  }

  lemma SlugifyDoubledSeparators(title: string)
    requires title == "  A--B  "
    ensures Slugify(title) == "a-b"
  {
    LowerCaseDoubledSeparators(title);
    assert AllAlnum("a") && AllAlnum("b");
    assert AllSeparators("  ") && AllSeparators("--");
    SlugOfTwoWords("  ", "a", "--", "b", "  ");
  }
}

=== FILE: unique_index.dfy ===
/** A collection guarded by a unique index, as MongoDB enforces one declared
    with `Schema.index({...}, { unique: true })`: an insert whose key is
    already taken by a stored document is refused with a duplicate-key
    error and the collection is left as it was. Writes are taken one at a
    time; concurrent writers are not modelled. */
module UniqueIndex {

  /** Why a save was refused: a pre-save hook passed an `Error` to `next`,
      or the unique index found the key taken (MongoDB error E11000). */
  datatype SaveError = HookError(message: string) | DuplicateKey

  /** The outcome of one save together with the collection after it. */
  datatype Write<D> = Committed(docs: set<D>) | Rejected(error: SaveError, docs: set<D>)

  /** At most one document per key value. */
  ghost predicate Unique<D, K>(docs: set<D>, key: D -> K)
  {
    forall a, b :: a in docs && b in docs && key(a) == key(b) ==> a == b
  }

  /** Some stored document already holds the key of `d`. */
  predicate KeyTaken<D, K(==)>(docs: set<D>, key: D -> K, d: D)
  {
    exists e :: e in docs && key(e) == key(d)
  }

  /** Insert `d` through the unique index on `key`. */
  function Insert<D(==), K(==)>(docs: set<D>, key: D -> K, d: D): (r: Write<D>)
    ensures r.Rejected? <==> KeyTaken(docs, key, d)
    ensures r.Rejected? ==> r.error == DuplicateKey && r.docs == docs
    ensures r.Committed? ==> r.docs == docs + {d}
    ensures Unique(docs, key) ==> Unique(r.docs, key)
    ensures r.Committed? ==> forall e :: e in r.docs && key(e) == key(d) ==> e == d
  {
    if KeyTaken(docs, key, d) then Rejected(DuplicateKey, docs) else Committed(docs + {d})
  }

  /** Insert `ds` one after another, keeping going after a refusal, as a
      caller does that saves a batch of documents one by one. */
  function InsertAll<D(==), K(==)>(docs: set<D>, key: D -> K, ds: seq<D>): (r: set<D>)
    ensures Unique(docs, key) ==> Unique(r, key)
    ensures docs <= r
    ensures forall e :: e in r ==> e in docs || e in ds
    ensures forall i :: 0 <= i < |ds| ==> KeyTaken(r, key, ds[i])
    decreases |ds|
  {
    if ds == [] then docs else InsertAll(Insert(docs, key, ds[0]).docs, key, ds[1..])
  }
}
